=== FILE: README.md ===
# Shopping-cart state transitions

A Dafny model of the cart provider hook of a storefront (`src/hooks/useCart.tsx`):
the cart is an ordered sequence of product lines, and the three operations
`addProduct`, `removeProduct` and `updateProductAmount` move it from one state to
the next after consulting a stock service and a catalog service.

Each operation is a pure function from (current cart, lookup answers, arguments)
to a `Step`:

- `outcome`: `Committed` (the state setter received a new cart), `Unchanged` (a
  silent return), `StockExceeded` (the out-of-stock toast) or `Failed` (the
  operation's catch-all toast);
- `cart`: the cart the provider holds afterwards;
- `persisted`: the cart value serialized to local storage, or `None` when storage
  was not written.

The answers of the remote lookups (`api.get('/stock/…')`, `api.get('/products/…')`)
are parameters of type `Option<Stock>` and `Option<CatalogEntry>`; `None` stands
for a rejected request, which the code turns into the catch-all toast. A new
line takes its id from the catalog answer (the spread at line 53), not from the
requested id, so every statement about distinct ids, and the remove-after-add
inverse, holds when the catalog answers with the record asked for; with a
mismatched answer an add can put a second line with an existing id in the cart.

Modules:

- `Wrappers`: `Option`.
- `Products`: the records (`Product`, `CatalogEntry`, `Stock`), the cart
  predicates (`HasId`, `IsFirst`, `UniqueIds`) and the sequence operations the
  transitions are built from (`IndexOfId` for `find`/`indexOf`, `SetAmount`,
  `RemoveAt` for `splice`).
- `Cart`: the three operations as written, and the helper `LoadCart`, the
  start-up read of storage (lines 25-33); it carries no contract of its own and
  is stated about through the reload lemmas.
- `CartProperties`: invariants, inverses and reload behaviour of the operations.
- `Session`: the cart after a sequence of calls (the helpers `Apply`, one call
  of the provider, and `Run`, the calls one after the other; they carry no
  contract of their own and are stated about through the `Session` lemmas),
  the id invariant it keeps, and the consequence of line 42 that adds never
  raise an existing quantity.
- `Intended`: the corrected add and remove of the findings below.

Where the code departs from its evident intent, the model follows the code:

- An add of a product already in the cart computes its candidate quantity as the
  stock plus one (line 42), not the line's quantity plus one, so for every
  stock of magnitude below 2^53 it reports the stock as exceeded; the branch
  that would raise the quantity (lines 49-50) is unreachable for integer
  quantities, and the model marks it with `assert false` (see "Numbers" under
  "## Left out" for larger stocks).
- `updateProductAmount` asks the stock service before checking whether the
  product is in the cart (lines 95-101), so a failed lookup is reported as a
  failure even for an absent product, rather than the silent return an absent
  product otherwise gets.
- The value written to storage is the array `cart` captured before the change
  (lines 60, 78, 108). For add and remove this is the stale pre-change cart. For
  update it is not stale: `[...cart]` copies the array but not its line objects,
  so the assignment at line 104 changes the line that `cart` also holds, and the
  serialized `cart` already carries the new quantity. The model records exactly
  this in `persisted`.

## Model

| member | source | states |
|---|---|---|
| Products.IndexOfId | src/hooks/useCart.tsx:69-72 | the position found is the first line with that id; no position exactly when no line carries the id |
| Products.WithAmount | src/hooks/useCart.tsx:53 | the new cart line carries exactly the catalog record's fields with the given quantity |
| Products.SetAmount | src/hooks/useCart.tsx:104 | only the chosen line's quantity changes, to the requested value; its catalog fields, every other line and the length are kept |
| Products.RemoveAt | src/hooks/useCart.tsx:73 | deleting one line shortens the cart by one and keeps the lines before it and the lines after it in order |
| Products.SetAmountKeepsIds | src/hooks/useCart.tsx:104 | after the quantity of any line is overwritten, the cart's product ids are the same ids in the same order as before |
| Products.RemoveAtUnique | src/hooks/useCart.tsx:72-73 | deleting a line from a cart with distinct ids keeps them distinct and leaves no line with the deleted id |
| Products.AppendUnique | src/hooks/useCart.tsx:49-55 | appending a line whose id is absent keeps the ids distinct |
| Cart.AddProduct | src/hooks/useCart.tsx:35-64 | stock exceeded exactly when the stock answer arrived and the product is present or the stock is below 1; failure exactly when the stock lookup failed or, for a new product in stock, the catalog lookup failed; otherwise exactly one line, the catalog record with quantity 1, is appended after the unchanged old lines and the pre-add cart is written to storage; on stock exceeded and on a failed lookup the cart is unchanged and nothing is written |
| Cart.RemoveProduct | src/hooks/useCart.tsx:66-87 | commits exactly when some line carries the id, and then deletes precisely the first such line, keeps the others in order, shortens the cart by one and writes the pre-removal cart to storage; otherwise a failure with the cart unchanged |
| Cart.UpdateProductAmount | src/hooks/useCart.tsx:89-115 | failure exactly when the stock lookup failed (present or not); silent no-op exactly when the stock answer arrived and the product is absent; stock exceeded exactly when it is present and the stock is below the request; otherwise the first line with the id gets exactly the requested quantity (no lower bound), every other line is kept and the new cart is written to storage |
| CartProperties.AddPreservesUniqueIds | src/hooks/useCart.tsx:49-55 | adding keeps the product ids distinct when the catalog answers with the record asked for |
| CartProperties.RemoveLeavesNoEntry | src/hooks/useCart.tsx:68-76 | removing from a cart with distinct ids keeps them distinct and leaves no line with the removed id |
| CartProperties.UpdateKeepsIds | src/hooks/useCart.tsx:103-106 | an update never changes the product ids or their order |
| CartProperties.RemoveUndoesAdd | src/hooks/useCart.tsx:52-73 | when the catalog answer is the record asked for, removing a product right after adding it restores the previous cart |
| CartProperties.UpdateUndo | src/hooks/useCart.tsx:103-106 | setting a quantity and then the old quantity back restores the cart when the stock covers both |
| CartProperties.UpdateIdempotent | src/hooks/useCart.tsx:103-106 | repeating an update with the same arguments changes nothing more |
| CartProperties.AddPresentAlwaysExceedsStock | src/hooks/useCart.tsx:42-47 | adding a product already in the cart reports the stock as exceeded and changes nothing, whatever the stock and the line's quantity |
| CartProperties.ReloadAfterAddIsStale | src/hooks/useCart.tsx:58-60 | after a committed add, the cart reloaded from storage is the pre-add cart, not the live one |
| CartProperties.ReloadAfterRemoveIsStale | src/hooks/useCart.tsx:76-78 | after a committed remove, the cart reloaded from storage still holds the removed line |
| CartProperties.ReloadAfterUpdateIsCurrent | src/hooks/useCart.tsx:104-108 | after a committed update, the cart reloaded from storage equals the live cart |
| CartProperties.Scenarios | src/hooks/useCart.tsx:35-115 | adding product 1 with five in stock to the empty cart gives the one line of its catalog record with quantity 1; adding product 1 again to a cart holding five units with five in stock reports stock exceeded and changes nothing; removing product 1 from lines 1 (two units) and 2 (one unit) leaves line 2; updating product 1 from two to seven units with ten in stock gives seven units |
| Session.ApplyPreservesUniqueIds | src/hooks/useCart.tsx:35-115 | when the catalog answer of an add is the record asked for, each of the three operations keeps the product ids distinct |
| Session.RunPreservesUniqueIds | src/hooks/useCart.tsx:35-115 | when every catalog answer is the record asked for, any sequence of calls, each completing before the next, keeps the product ids distinct |
| Session.ApplyWithoutUpdateKeepsLines | src/hooks/useCart.tsx:42-76 | after an add or a remove, every line is a line of the previous cart or a fresh line with quantity 1: an add never raises an existing quantity |
| Session.RunWithoutUpdateKeepsLines | src/hooks/useCart.tsx:35-87 | over any sequence of adds and removes, every line of the final cart is a line of the initial cart or holds exactly one unit |
| Intended.AddProduct | src/hooks/useCart.tsx:42-60 | a product already in the cart gets its line's quantity raised by exactly one when the stock covers it, and stock exceeded otherwise; a new product behaves as in the code; a committed change writes the new cart to storage |
| Intended.RemoveProduct | src/hooks/useCart.tsx:76-78 | same outcome and cart as the code, with the new cart written to storage |
| Intended.AddKeepsInvariants | src/hooks/useCart.tsx:42-58 | when the catalog answer is the record asked for, the corrected add keeps the ids distinct and the line it touches at most at the stock |
| Intended.IncrementCounterexample | src/hooks/useCart.tsx:42-47 | one unit in the cart and five in stock: the code reports stock exceeded where the corrected add gives two units |
| Intended.ReloadAfterAddIsCurrent | src/hooks/useCart.tsx:58-60 | after a corrected committed add, the cart reloaded from storage equals the live cart |
| Intended.ReloadAfterRemoveIsCurrent | src/hooks/useCart.tsx:76-78 | after a corrected committed remove, the reloaded cart equals the live cart and holds no line with the removed id |

## Findings

| source | as written | input that shows it | evidently intended | confidence | as-written member | corrected member |
|---|---|---|---|---|---|---|
| src/hooks/useCart.tsx:42 | the candidate quantity of a product already in the cart is the stock plus one, which exceeds the stock for every stock of magnitude below 2^53 | a cart with one unit of product 1, five in stock, `addProduct(1)`: out-of-stock toast, cart unchanged | the line's quantity plus one, giving two units | high; not executed | CartProperties.AddPresentAlwaysExceedsStock | Intended.AddProduct |
| src/hooks/useCart.tsx:60 | storage receives `cart`, the array from before the append | an empty cart, five in stock, `addProduct(1)`: storage holds the empty cart, so a reload loses the line | storage receives `updatedCart` | high; not executed | CartProperties.ReloadAfterAddIsStale | Intended.ReloadAfterAddIsCurrent |
| src/hooks/useCart.tsx:78 | storage receives `cart`, the array from before the deletion | a cart with products 1 and 2, `removeProduct(1)`: storage still holds product 1, so a reload brings it back | storage receives `updatedCart` | high; not executed | CartProperties.ReloadAfterRemoveIsStale | Intended.ReloadAfterRemoveIsCurrent |

The `Cart` module keeps the behaviour as written, since it is the model of the
code; `Intended` holds the corrected operations and their proofs. The update
operation needs no correction: its stale-looking write at line 108 already
stores the new quantity through the shared line object.

## Left out

- React wiring (`createContext`, `useState`, the provider element, the `useCart` hook at lines 117-130): framework plumbing with no logic.
- HTTP calls: each lookup is a parameter holding its answer or `None` for a rejected request; which request the code sends is not modelled.
- Toast messages and their Portuguese text: the `Outcome` value determines which toast is shown.
- JSON serialization and local storage: `persisted` is the cart value handed to `JSON.stringify`, and `LoadCart` reads an already decoded value, so the parse/stringify round trip is assumed, and an empty stored string (read as no cart) is folded into `None`.
- Overlapping asynchronous calls and their lost updates: `Session` assumes each call sees the cart the previous call committed, which holds only when the provider re-rendered in between; two awaited calls from one handler share the same captured `cart` and lose an update even without overlapping.
- Shared line objects beyond their effect on the stored value: the in-place change of the line in the previous state array is not observable in a value model.
- Numbers: ids and quantities are unbounded integers and prices are reals; fractional, `NaN` or missing quantities in a service answer are not modelled. In particular, for stocks of magnitude 2^53 or more, `response.data.amount + 1` can round back to the stock (for example 2^53 or 2^54); then the check at line 44 passes and lines 49-50 set the line's quantity to the stock and commit. The claim that a present product always exceeds the stock is proved for integer quantities and carries over to the source's doubles for every stock of magnitude below 2^53.
- Storage write failures: `localStorage.setItem` runs after the state setter (lines 58-60, 76-78, 106-108) and can throw (quota exceeded, storage disabled); the catch-all toast then follows a change that was already committed. The model does not produce this failure-with-changed-cart outcome.
- The catalog record may carry fields beyond id, title, price and image; only those four are modelled, and an `amount` field in it is overwritten by 1 as the spread at line 53 does.

=== FILE: cart.dfy ===
/** The three cart transitions of the cart provider hook, as pure functions from
    the current cart, the answers of the remote lookups and the arguments to the
    outcome, the cart handed to the state setter, and the snapshot written to
    local storage. */
module Cart {
  import opened Wrappers
  import opened Products

  /** How an operation ended:
      - Committed: the state setter received a new cart (and storage was written);
      - Unchanged: the operation returned silently without touching anything;
      - StockExceeded: the out-of-stock toast was shown, nothing changed;
      - Failed: the catch-all toast was shown after a failed lookup or an absent
        product, nothing changed (a storage write that throws after the state
        setter ran is not modelled). */
  datatype Outcome = Committed | Unchanged | StockExceeded | Failed

  /** The result of one operation. `persisted` is the cart value serialized to
      local storage, or None when storage was not written. */
  datatype Step = Step(outcome: Outcome, cart: seq<Product>, persisted: Option<seq<Product>>)

  /** The cart read at start-up: the stored snapshot, or the empty cart when
      storage holds nothing. */
  function LoadCart(stored: Option<seq<Product>>): seq<Product> {
    if stored.Some? then stored.value else []
  }

  /** addProduct: `stock` is the stock service's answer for `productId` (None when
      the request failed) and `catalog` the catalog service's answer (consulted
      only when the product is not yet in the cart). The candidate quantity for a
      product already in the cart is the STOCK plus one, so with integer
      quantities (for the source's doubles: every stock of magnitude below 2^53)
      that path can never pass the stock check; a new product enters with
      quantity 1 at the end. The snapshot written to storage is the cart as it
      was before the append. */
  function AddProduct(cart: seq<Product>, productId: int, stock: Option<Stock>, catalog: Option<CatalogEntry>): (r: Step)
    ensures r.outcome == StockExceeded <==>
              stock.Some? && (HasId(cart, productId) || stock.value.amount < 1)
    ensures r.outcome == Failed <==>
              stock.None? || (!HasId(cart, productId) && stock.value.amount >= 1 && catalog.None?)
    ensures r.outcome != Unchanged
    ensures r.outcome != Committed ==> r.cart == cart && r.persisted.None?
    ensures r.outcome == Committed ==>
              && catalog.Some?
              && |r.cart| == |cart| + 1
              && r.cart[..|cart|] == cart
              && r.cart[|cart|] == WithAmount(catalog.value, 1)
              && r.persisted == Some(cart)
  {
    var found := IndexOfId(cart, productId);
    match stock
    case None => Step(Failed, cart, None)
    case Some(s) =>
      var newAmount := if found.Some? then s.amount + 1 else 1;
      if newAmount > s.amount then
        Step(StockExceeded, cart, None)
      else
        match found
        case Some(i) =>
          // Lines 49-50 of the source: unreachable for integer quantities, since
          // newAmount is the stock plus one (in doubles, for every stock of
          // magnitude below 2^53).
          assert false;
          var updated := SetAmount(cart, i, newAmount);
          Step(Committed, updated, Some(updated))
        case None =>
          match catalog
          case None => Step(Failed, cart, None)
          case Some(e) => Step(Committed, cart + [WithAmount(e, 1)], Some(cart))
  }

  /** removeProduct: deletes the first line carrying `productId` and keeps the
      order of the others; an absent id is reported as a failure. The snapshot
      written to storage is the cart as it was before the deletion. */
  function RemoveProduct(cart: seq<Product>, productId: int): (r: Step)
    ensures r.outcome == Committed <==> HasId(cart, productId)
    ensures r.outcome != Committed ==> r.outcome == Failed && r.cart == cart && r.persisted.None?
    ensures r.outcome == Committed ==>
              && |r.cart| == |cart| - 1
              && (exists i :: IsFirst(cart, productId, i) && r.cart == cart[..i] + cart[i + 1..])
              && r.persisted == Some(cart)
  {
    match IndexOfId(cart, productId)
    case None => Step(Failed, cart, None)
    case Some(i) => Step(Committed, RemoveAt(cart, i), Some(cart))
  }

  /** updateProductAmount: the stock service is asked first, so a failed
      lookup is a failure even for a product that is not in the cart; with an
      answer, an absent product is a silent no-op, and a present one gets exactly
      the requested quantity when the stock covers it (zero and negative
      quantities included). The line object is shared with the previous cart, so
      the snapshot written to storage already holds the new quantity. */
  function UpdateProductAmount(cart: seq<Product>, productId: int, amount: int, stock: Option<Stock>): (r: Step)
    ensures r.outcome == Failed <==> stock.None?
    ensures r.outcome == Unchanged <==> stock.Some? && !HasId(cart, productId)
    ensures r.outcome == StockExceeded <==>
              stock.Some? && HasId(cart, productId) && stock.value.amount < amount
    ensures r.outcome != Committed ==> r.cart == cart && r.persisted.None?
    ensures r.outcome == Committed ==>
              && stock.Some? && amount <= stock.value.amount
              && (exists i :: IsFirst(cart, productId, i) && r.cart == cart[i := cart[i].(amount := amount)])
              && r.persisted == Some(r.cart)
  {
    var found := IndexOfId(cart, productId);
    match stock
    case None => Step(Failed, cart, None)
    case Some(s) =>
      match found
      case None => Step(Unchanged, cart, None)
      case Some(i) =>
        if s.amount >= amount then
          var updated := SetAmount(cart, i, amount);
          Step(Committed, updated, Some(updated))
        else
          Step(StockExceeded, cart, None)
  }
}

=== FILE: cart_properties.dfy ===
/** Properties relating the cart transitions to each other and to the cart
    invariants: distinct ids, order of the untouched lines, inverse operations,
    and what a reload from storage sees after each operation. */
module CartProperties {
  import opened Wrappers
  import opened Products
  import opened Cart

  /** Adding keeps the ids distinct, provided the catalog answers with the record
      of the product that was asked for (the new line takes its id from that
      record). */
  lemma AddPreservesUniqueIds(cart: seq<Product>, productId: int, stock: Option<Stock>, catalog: Option<CatalogEntry>)
    requires UniqueIds(cart)
    requires catalog.Some? ==> catalog.value.id == productId
    ensures UniqueIds(AddProduct(cart, productId, stock, catalog).cart)
  {
  }

  /** Removing keeps the ids distinct, and when they were distinct no line with
      the removed id is left. */
  lemma RemoveLeavesNoEntry(cart: seq<Product>, productId: int)
    requires UniqueIds(cart)
    ensures UniqueIds(RemoveProduct(cart, productId).cart)
    ensures !HasId(RemoveProduct(cart, productId).cart, productId)
  {
  }

  /** Updating a quantity never changes the ids or their order. */
  lemma UpdateKeepsIds(cart: seq<Product>, productId: int, amount: int, stock: Option<Stock>)
    ensures Ids(UpdateProductAmount(cart, productId, amount, stock).cart) == Ids(cart)
  {
  }

  /** Removing a product that was just added gives back the cart as it was. */
  lemma RemoveUndoesAdd(cart: seq<Product>, productId: int, stock: Option<Stock>, catalog: Option<CatalogEntry>)
    requires catalog.Some? ==> catalog.value.id == productId
    requires AddProduct(cart, productId, stock, catalog).outcome == Committed
    ensures RemoveProduct(AddProduct(cart, productId, stock, catalog).cart, productId).cart == cart
  {
  }

  /** Setting a quantity and then setting the old quantity back restores the
      cart, when the stock covers both. */
  lemma UpdateUndo(cart: seq<Product>, productId: int, amount: int, s: Stock, i: nat)
    requires IsFirst(cart, productId, i)
    requires amount <= s.amount && cart[i].amount <= s.amount
    ensures UpdateProductAmount(UpdateProductAmount(cart, productId, amount, Some(s)).cart,
                                productId, cart[i].amount, Some(s)).cart == cart
  {
  }

  /** Repeating an update changes nothing more. */
  lemma UpdateIdempotent(cart: seq<Product>, productId: int, amount: int, stock: Option<Stock>)
    ensures var once := UpdateProductAmount(cart, productId, amount, stock).cart;
            UpdateProductAmount(once, productId, amount, stock).cart == once
  {
  }

  /** Adding a product that is already in the cart always reports the stock as
      exceeded, whatever the stock and the current quantity are: the candidate
      quantity is computed from the stock, not from the line. */
  lemma AddPresentAlwaysExceedsStock(cart: seq<Product>, productId: int, s: Stock, catalog: Option<CatalogEntry>, i: nat)
    requires i < |cart| && cart[i].id == productId
    ensures AddProduct(cart, productId, Some(s), catalog) == Step(StockExceeded, cart, None)
  {
  }

  /** After an add that commits, reloading from storage yields the cart from
      before the add: the written snapshot misses the new line. */
  lemma ReloadAfterAddIsStale(cart: seq<Product>, productId: int, stock: Option<Stock>, catalog: Option<CatalogEntry>)
    requires AddProduct(cart, productId, stock, catalog).outcome == Committed
    ensures var r := AddProduct(cart, productId, stock, catalog);
            LoadCart(r.persisted) == cart && LoadCart(r.persisted) != r.cart
  {
  }

  /** After a remove that commits, reloading from storage brings the removed
      line back. */
  lemma ReloadAfterRemoveIsStale(cart: seq<Product>, productId: int)
    requires HasId(cart, productId)
    ensures var r := RemoveProduct(cart, productId);
            LoadCart(r.persisted) == cart && HasId(LoadCart(r.persisted), productId)
            && LoadCart(r.persisted) != r.cart
  {
  }

  /** After an update that commits, reloading from storage yields the updated
      cart, because the written array shares the modified line. */
  lemma ReloadAfterUpdateIsCurrent(cart: seq<Product>, productId: int, amount: int, stock: Option<Stock>)
    requires UpdateProductAmount(cart, productId, amount, stock).outcome == Committed
    ensures var r := UpdateProductAmount(cart, productId, amount, stock);
            LoadCart(r.persisted) == r.cart
  {
  }

  /** Four concrete calls: adding product 1 with five in stock to the empty
      cart; adding product 1 again to a cart holding five units with five in
      stock; removing product 1 from a cart holding products 1 and 2; updating
      product 1 from two to seven units with ten in stock. */
  lemma Scenarios(e: CatalogEntry, p2: Product)
    requires e.id == 1 && p2.id == 2 && p2.amount == 1
    ensures AddProduct([], 1, Some(Stock(1, 5)), Some(e)).cart == [WithAmount(e, 1)]
    ensures var c := [WithAmount(e, 5)];
            AddProduct(c, 1, Some(Stock(1, 5)), Some(e)) == Step(StockExceeded, c, None)
    ensures RemoveProduct([WithAmount(e, 2), p2], 1).cart == [p2]
    ensures UpdateProductAmount([WithAmount(e, 2)], 1, 7, Some(Stock(1, 10))).cart == [WithAmount(e, 7)]
  {
  }
}

=== FILE: intended.dfy ===
/** The cart transitions corrected where the code evidently departs from its
    intent: an add of a product already in the cart raises that line's quantity
    by one, and every committed change writes the changed cart to storage. The
    quantity update already behaves as described and is not repeated here. */
module Intended {
  import opened Wrappers
  import opened Products
  import Cart

  /** addProduct with the candidate quantity taken from the line in the cart
      and the new cart written to storage. */
  function AddProduct(cart: seq<Product>, productId: int, stock: Option<Stock>, catalog: Option<CatalogEntry>): (r: Cart.Step)
    ensures stock.None? ==> r == Cart.Step(Cart.Failed, cart, None)
    ensures forall i :: IsFirst(cart, productId, i) && stock.Some? ==>
              if cart[i].amount + 1 <= stock.value.amount
              then r.outcome == Cart.Committed && r.cart == cart[i := cart[i].(amount := cart[i].amount + 1)]
              else r == Cart.Step(Cart.StockExceeded, cart, None)
    ensures !HasId(cart, productId) ==>
              r == Cart.AddProduct(cart, productId, stock, catalog).(persisted := r.persisted)
    ensures r.outcome != Cart.Committed ==> r.persisted.None?
    ensures r.outcome == Cart.Committed ==> r.persisted == Some(r.cart)
  {
    var found := IndexOfId(cart, productId);
    match stock
    case None => Cart.Step(Cart.Failed, cart, None)
    case Some(s) =>
      var newAmount := if found.Some? then cart[found.value].amount + 1 else 1;
      if newAmount > s.amount then
        Cart.Step(Cart.StockExceeded, cart, None)
      else
        match found
        case Some(i) =>
          var updated := SetAmount(cart, i, newAmount);
          Cart.Step(Cart.Committed, updated, Some(updated))
        case None =>
          match catalog
          case None => Cart.Step(Cart.Failed, cart, None)
          case Some(e) =>
            var appended := cart + [WithAmount(e, 1)];
            Cart.Step(Cart.Committed, appended, Some(appended))
  }

  /** removeProduct with the new cart written to storage. */
  function RemoveProduct(cart: seq<Product>, productId: int): (r: Cart.Step)
    ensures r.outcome == Cart.RemoveProduct(cart, productId).outcome
    ensures r.cart == Cart.RemoveProduct(cart, productId).cart
    ensures r.outcome == Cart.Committed ==> r.persisted == Some(r.cart)
    ensures r.outcome != Cart.Committed ==> r.persisted.None?
  {
    var r := Cart.RemoveProduct(cart, productId);
    if r.outcome == Cart.Committed then r.(persisted := Some(r.cart)) else r
  }

  /** The corrected add keeps the ids distinct and never puts a quantity above
      the stock on the line it touches. */
  lemma AddKeepsInvariants(cart: seq<Product>, productId: int, stock: Option<Stock>, catalog: Option<CatalogEntry>)
    requires UniqueIds(cart)
    requires catalog.Some? ==> catalog.value.id == productId
    ensures var r := AddProduct(cart, productId, stock, catalog);
            && UniqueIds(r.cart)
            && (r.outcome == Cart.Committed ==>
                  exists i :: IsFirst(r.cart, productId, i) && r.cart[i].amount <= stock.value.amount)
  {
  }

  /** The add of a second unit of a product with five in stock: the code reports
      the stock as exceeded, the corrected add raises the quantity to two. */
  lemma IncrementCounterexample(e: CatalogEntry)
    ensures var cart := [WithAmount(e, 1)];
            && Cart.AddProduct(cart, e.id, Some(Stock(e.id, 5)), Some(e)).outcome == Cart.StockExceeded
            && AddProduct(cart, e.id, Some(Stock(e.id, 5)), Some(e)).cart == [WithAmount(e, 2)]
  {
  }

  /** After the corrected add or remove commits, reloading from storage yields
      exactly the live cart. */
  lemma ReloadAfterAddIsCurrent(cart: seq<Product>, productId: int, stock: Option<Stock>, catalog: Option<CatalogEntry>)
    requires AddProduct(cart, productId, stock, catalog).outcome == Cart.Committed
    ensures var r := AddProduct(cart, productId, stock, catalog);
            Cart.LoadCart(r.persisted) == r.cart
  {
  }

  lemma ReloadAfterRemoveIsCurrent(cart: seq<Product>, productId: int)
    requires HasId(cart, productId) && UniqueIds(cart)
    ensures var r := RemoveProduct(cart, productId);
            Cart.LoadCart(r.persisted) == r.cart && !HasId(Cart.LoadCart(r.persisted), productId)
  {
  }
}

=== FILE: products.dfy ===
/** The records the cart is made of, and the sequence operations the cart
    transitions are built from: locating the first line with a given product
    id, overwriting a line's quantity, and deleting a line. */
module Products {
  import opened Wrappers

  /** A product record as the catalog service returns it, without a cart quantity. */
  datatype CatalogEntry = CatalogEntry(id: int, title: string, price: real, image: string)

  /** A cart line: the catalog fields plus the quantity of that product held in the cart. */
  datatype Product = Product(id: int, title: string, price: real, image: string, amount: int)

  /** The stock service's answer: how many units of the product can be bought. */
  datatype Stock = Stock(id: int, amount: int)

  /** The catalog part of a cart line. */
  function Info(p: Product): CatalogEntry {
    CatalogEntry(p.id, p.title, p.price, p.image)
  }

  /** A catalog record spread into a cart line with the given quantity. */
  function WithAmount(e: CatalogEntry, amount: int): (p: Product)
    ensures Info(p) == e && p.amount == amount
  {
    Product(e.id, e.title, e.price, e.image, amount)
  }

  /** Some line of the cart carries product id `id`. */
  ghost predicate HasId(cart: seq<Product>, id: int) {
    exists i :: 0 <= i < |cart| && cart[i].id == id
  }

  /** Line `i` is the first line of the cart that carries product id `id`. */
  ghost predicate IsFirst(cart: seq<Product>, id: int, i: int) {
    && 0 <= i < |cart|
    && cart[i].id == id
    && forall k :: 0 <= k < i ==> cart[k].id != id
  }

  /** No two lines of the cart carry the same product id. */
  ghost predicate UniqueIds(cart: seq<Product>) {
    forall i, j :: 0 <= i < |cart| && 0 <= j < |cart| && i != j ==> cart[i].id != cart[j].id
  }

  /** The product ids of the cart, in cart order. */
  function Ids(cart: seq<Product>): (ids: seq<int>)
    ensures |ids| == |cart|
    ensures forall k :: 0 <= k < |cart| ==> ids[k] == cart[k].id
  {
    seq(|cart|, k requires 0 <= k < |cart| => cart[k].id)
  }

  /** The position of the first line with product id `id`, or None when there is
      none: the line `Array.prototype.find` returns and whose index
      `indexOf` then yields. */
  function IndexOfId(cart: seq<Product>, id: int): (r: Option<nat>)
    ensures r.Some? ==> IsFirst(cart, id, r.value)
    ensures r.None? <==> !HasId(cart, id)
  {
    if |cart| == 0 then None
    else if cart[0].id == id then Some(0)
    else
      match IndexOfId(cart[1..], id)
      case None =>
        assert forall k :: 1 <= k < |cart| ==> cart[k] == cart[1..][k - 1];
        None
      case Some(j) =>
        assert cart[j + 1] == cart[1..][j];
        assert forall k :: 1 <= k <= j ==> cart[k] == cart[1..][k - 1];
        Some(j + 1)
  }

  /** The cart with the quantity of line `i` replaced by `amount`; a position
      past the end leaves the cart as it is. */
  function SetAmount(cart: seq<Product>, i: nat, amount: int): (r: seq<Product>)
    ensures |r| == |cart|
    ensures i < |cart| ==> r[i].amount == amount && Info(r[i]) == Info(cart[i])
    ensures forall k :: 0 <= k < |cart| && k != i ==> r[k] == cart[k]
  {
    if i < |cart| then cart[i := cart[i].(amount := amount)] else cart
  }

  /** The cart with line `i` deleted, as `splice(i, 1)` does. */
  function RemoveAt(cart: seq<Product>, i: nat): (r: seq<Product>)
    requires i < |cart|
    ensures |r| == |cart| - 1
    ensures forall k :: 0 <= k < i ==> r[k] == cart[k]
    ensures forall k :: i <= k < |r| ==> r[k] == cart[k + 1]
  {
    cart[..i] + cart[i + 1..]
  }

  /** Overwriting a quantity keeps every product id in place. */
  lemma SetAmountKeepsIds(cart: seq<Product>, i: nat, amount: int)
    ensures Ids(SetAmount(cart, i, amount)) == Ids(cart)
  {
  }

  /** Deleting a line keeps the other ids distinct, and when the ids were
      distinct the deleted id no longer occurs. */
  lemma RemoveAtUnique(cart: seq<Product>, i: nat)
    requires i < |cart| && UniqueIds(cart)
    ensures UniqueIds(RemoveAt(cart, i))
    ensures !HasId(RemoveAt(cart, i), cart[i].id)
  {
  }

  /** Appending a line whose id is not yet present keeps the ids distinct. */
  lemma AppendUnique(cart: seq<Product>, p: Product)
    requires UniqueIds(cart) && !HasId(cart, p.id)
    ensures UniqueIds(cart + [p])
  {
  }
}

=== FILE: session.dfy ===
/** The cart provider's state over a sequence of calls, where each call sees
    the cart the previous call committed (the provider re-rendered in between),
    and the invariants that state keeps. */
module Session {
  import opened Wrappers
  import opened Products
  import opened Cart

  /** One call of the provider, carrying the answers its remote lookups got. */
  datatype Command =
    | Add(productId: int, stock: Option<Stock>, catalog: Option<CatalogEntry>)
    | Remove(productId: int)
    | Update(productId: int, amount: int, stock: Option<Stock>)

  /** The catalog answer of an add, when there is one, is the record of the
      product that was asked for. */
  predicate CatalogConsistent(cmd: Command) {
    cmd.Add? && cmd.catalog.Some? ==> cmd.catalog.value.id == cmd.productId
  }

  function Apply(cart: seq<Product>, cmd: Command): Step {
    match cmd
    case Add(id, stock, catalog) => AddProduct(cart, id, stock, catalog)
    case Remove(id) => RemoveProduct(cart, id)
    case Update(id, amount, stock) => UpdateProductAmount(cart, id, amount, stock)
  }

  /** The cart after the calls `cmds`, one after the other. */
  function Run(cart: seq<Product>, cmds: seq<Command>): seq<Product>
    decreases |cmds|
  {
    if |cmds| == 0 then cart else Run(Apply(cart, cmds[0]).cart, cmds[1..])
  }

  /** Every call keeps the product ids of the cart distinct. */
  lemma ApplyPreservesUniqueIds(cart: seq<Product>, cmd: Command)
    requires UniqueIds(cart) && CatalogConsistent(cmd)
    ensures UniqueIds(Apply(cart, cmd).cart)
  {
  }

  /** Any sequence of calls keeps the product ids of the cart distinct. */
  lemma {:induction false} RunPreservesUniqueIds(cart: seq<Product>, cmds: seq<Command>)
    requires UniqueIds(cart)
    requires forall k :: 0 <= k < |cmds| ==> CatalogConsistent(cmds[k])
    ensures UniqueIds(Run(cart, cmds))
    decreases |cmds|
  {
    if |cmds| > 0 {
      ApplyPreservesUniqueIds(cart, cmds[0]);
      RunPreservesUniqueIds(Apply(cart, cmds[0]).cart, cmds[1..]);
    }
  }

  /** Every line of the cart after the call either was a line of the cart
      before it or is a fresh line with quantity 1, unless the call is an
      update: an add never raises the quantity of an existing line. */
  lemma ApplyWithoutUpdateKeepsLines(cart: seq<Product>, cmd: Command)
    requires !cmd.Update?
    ensures forall p :: p in Apply(cart, cmd).cart ==> p in cart || p.amount == 1
  {
  }

  /** Without updates, a run of calls only deletes lines and appends lines with
      quantity 1: no line ever holds more than one unit unless it already did. */
  lemma {:induction false} RunWithoutUpdateKeepsLines(cart: seq<Product>, cmds: seq<Command>)
    requires forall k :: 0 <= k < |cmds| ==> !cmds[k].Update?
    ensures forall p :: p in Run(cart, cmds) ==> p in cart || p.amount == 1
    decreases |cmds|
  {
    if |cmds| > 0 {
      var next := Apply(cart, cmds[0]).cart;
      ApplyWithoutUpdateKeepsLines(cart, cmds[0]);
      RunWithoutUpdateKeepsLines(next, cmds[1..]);
    }
  }
}

=== FILE: wrappers.dfy ===
/** The optional value used for the answers of the remote lookups (None for a
    rejected request) and for the snapshot written to local storage (None when
    nothing was written). */
module Wrappers {

  datatype Option<+T> = None | Some(value: T)
}
